=== FILE: README.md ===
# First-party data resolution, modelled in Dafny

This project models the first-party-data (FPD) engine of Prebid Server
(`firstpartydata/first_party_data.go`). Before a bid request fans out to the bidders, the engine
builds a separate User/App/Site view for each bidder in four steps:

1. **Raw extraction** (`GetGlobalFPDData`). It drops `site.ext.data`, `app.ext.data` and
   `user.ext.data` from the raw request and keys the dropped blobs by entity.
2. **Structured extraction** (`ExtractOpenRtbGlobalFPD`). It moves the non-empty `user.data`,
   `site.content.data` and `app.content.data` arrays out of the parsed request into a map keyed
   `userData`, `siteContentData` and `appContentData`.
3. **Bidder-config preprocessing** (`PreprocessBidderFPD`). It folds `ext.prebid.data.bidders`
   and the ordered `ext.prebid.bidderconfig` blocks into one override record per bidder. Then it
   clears both declarations.
4. **Resolution** (`BuildResolvedFPDForBidders` and helpers). For every bidder, each entity
   starts from the base entity. The global data is applied next, if the bidder is on the
   participation list. The bidder's override comes last: it replaces a fixed list of fields and
   merge-patches `ext`.

Modules:

- `Wrappers`: `Option` and `Result`.
- `Json`: the JSON value tree, and `RawJson`. `RawJson` is a JSON-carrying byte field seen
  through its parse: no bytes, a well-formed document, or malformed bytes.
- `JsonUtil`: removal at a path, standing for `jsonutil.FindAndDropElement`.
- `JsonPatch`: the merge patch of section 2 of RFC 7396, standing for `jsonpatch.MergePatch`.
- `OpenRtb`: the request objects and the Prebid request extension.
- `FpdKeys`: the map keys shared by extraction and resolution.
- `FpdExtraction`, `FpdPreprocess`, `FpdResolution`: the four steps above.
- `FpdScenarios`: worked consequences.

Everything is a pure function over immutable values. Go's `(value, error)` pairs, where both
halves are returned, become `ValueErr`.

Five behaviours of the code, which its comments and names do not announce, are modelled as
written:

- **Ext shortcut** (`first_party_data.go:128-132` and `:156-160`). When the target `ext` is
  empty, the patch (or the `{"data":…}` blob) is assigned verbatim instead of merge-patched. So
  its `null` members survive (`FpdResolution.ExtShortcutKeepsNulls`). An unparsable override
  `ext` therefore fails resolution only when it has to be merged into a non-empty `ext`; when
  it is assigned, it passes without error (`FpdScenarios.MalformedOverrideExtOntoEmptyPasses`).
- **Lost global error** (`first_party_data.go:138-143`). When an override is present, the
  error from the global merge is overwritten by the override merge's error, so a failed global
  merge is not fatal. An override without `ext` hides it entirely
  (`FpdScenarios.GlobalMergeErrorIsLost`).
- **Record reset** (`first_party_data.go:320-322`). The comment at lines 323-324 says the last
  defined bidder-specific config takes precedence. The code keeps earlier sub-objects across
  blocks only for bidders listed in `ext.prebid.data.bidders`. Every other bidder starts again
  from an empty record in each block that names it (`FpdScenarios.RecordResetDropsEarlierSite`).
- **No result without a base or an override** (`first_party_data.go:113-115`). A result is
  absent whenever both the base and the override are absent. This holds even when the bidder
  participates and global data exists.
- **Two nil dereferences** (`first_party_data.go:312` and `:317`). A nil `data` with a block
  list present, and a nil block list with a non-empty bidder list, both panic. They are
  preconditions here, not error results.

## Model

| member | source | states |
|---|---|---|
| JsonUtil.FindAndDropElement | firstpartydata/first_party_data.go:26-29 | The drop succeeds exactly when the document parses and every node that must be looked into is an object. It returns the value that stood at the path, or no bytes. It leaves nothing at the path and changes nothing at any unrelated path. |
| JsonUtil.DropAt | firstpartydata/first_party_data.go:26 | On the tree, the drop fails exactly when a node on the way is not an object. The removed value is what lookup finds at the path, and an absent path leaves the document unchanged. |
| JsonUtil.DropAtRoundTrip | firstpartydata/first_party_data.go:26 | Writing the removed value back at the path rebuilds the original document. |
| JsonUtil.DropAtFrame | firstpartydata/first_party_data.go:26 | A lookup along any path disjoint from the dropped one sees the same value before and after the drop. |
| JsonPatch.MergePatch | firstpartydata/first_party_data.go:157 | A non-object patch replaces the target. For an object patch, the result keeps the target's other members, deletes the members the patch sets to null, and takes the patch's scalar and array members. |
| JsonPatch.MergePatchIdempotent | firstpartydata/first_party_data.go:157 | Applying the same merge patch twice is the same as applying it once. |
| JsonPatch.MergePatchKeepsNullFree | firstpartydata/first_party_data.go:157 | A merge never puts a null member into a target that had none. |
| JsonPatch.MergeIntoEmptyIsIdentity | firstpartydata/first_party_data.go:155-160 | Merging any patch into `{}` gives back the patch exactly when the patch has no null member. A patch that is not an object always comes back unchanged. |
| JsonPatch.MergePatchRaw | firstpartydata/first_party_data.go:157 | The byte-level merge succeeds exactly when both sides parse. An unparsable target reports a bad document before the patch is looked at. |
| FpdExtraction.GetGlobalFpdData | firstpartydata/first_party_data.go:22-45 | On success the blob map has exactly the keys site, app and user. Any failure is a malformed-document error. |
| FpdExtraction.GetGlobalFpdDataSpec | firstpartydata/first_party_data.go:22-45 | Extraction succeeds exactly when the request parses and all three `ext.data` places can be followed. Each blob is the value at `<entity>.ext.data` in the original request. None of the three places remains, and everything away from them is unchanged. |
| FpdExtraction.ExtractOpenRtbGlobalFpd | firstpartydata/first_party_data.go:47-68 | Each key is present exactly when its array was non-empty, and it maps to that array. All three arrays are empty afterwards. The request id and the presence of user, site and app are unchanged. |
| FpdExtraction.ExtractRestoreRoundTrip | firstpartydata/first_party_data.go:47-68 | Putting the extracted arrays back rebuilds the original request, so no other field changed. |
| FpdPreprocess.Overlay | firstpartydata/first_party_data.go:326-336 | A block overwrites each of site, app and user that it supplies and keeps the others. A block with a nil config or a nil payload changes nothing. |
| FpdPreprocess.ApplyNames | firstpartydata/first_party_data.go:318-338 | After one block, every named bidder holds the block laid over its record. That record is its previous one if listed, else an empty one. Unnamed bidders are untouched, and named bidders gain entries. |
| FpdPreprocess.ApplyBlocks | firstpartydata/first_party_data.go:317-339 | After all blocks, the keys are the seeded ones plus every named bidder. A listed bidder holds, per sub-object, the value from the last block naming it that supplies that sub-object. An unlisted bidder holds exactly what the last block naming it supplies. |
| FpdPreprocess.LastSupplierWins | firstpartydata/first_party_data.go:317-334 | Index-based reference for the fold: if block `i` is the last block naming the bidder that supplies a given sub-object, the folded record holds block `i`'s value for that sub-object. |
| FpdPreprocess.NoSupplierKeepsStart | firstpartydata/first_party_data.go:317-334 | If no block naming the bidder supplies a given sub-object, the folded record keeps the starting record's value for it. |
| FpdPreprocess.LastNaming | firstpartydata/first_party_data.go:317-322 | The index returned names the bidder, and no later block does. |
| FpdPreprocess.PreprocessBidderFpd | firstpartydata/first_party_data.go:304-348 | The result's keys are the listed bidders together with every bidder any block names. Precedence is as in ApplyBlocks, starting from empty records. The cleaned extension has no block list and an empty bidder list, and everything else is unchanged. |
| FpdResolution.BuildExtData | firstpartydata/first_party_data.go:297-302 | The wrapped blob parses exactly when the blob does. It then holds the blob under `data` and nothing else. It is never empty. |
| FpdResolution.MergeExt | firstpartydata/first_party_data.go:155-161 | An empty patch changes nothing. A patch onto an empty `ext` is assigned verbatim without error. Otherwise the result is the merge patch when both sides parse, and an error with no bytes when they do not. |
| FpdResolution.ApplyGlobalExt | firstpartydata/first_party_data.go:126-133 | An empty blob changes nothing. A blob onto an empty `ext` becomes `{"data": blob}`. Otherwise `ext` is merge-patched with `{"data": blob}`, with an error exactly when one side does not parse. |
| FpdResolution.ExtShortcutKeepsNulls | firstpartydata/first_party_data.go:128-132 | Verbatim assignment of any patch (object, array or scalar) onto an empty `ext` matches a merge into `{}` exactly when the patch has no null member. |
| FpdResolution.ContentWithData | firstpartydata/first_party_data.go:187-194 | Non-empty global data becomes the content's `data`, and other content fields are kept. If there was no content, an empty `Content` holding the data is created. |
| FpdResolution.ApplyGlobalUser | firstpartydata/first_party_data.go:124-137 | The global step changes only the user's `ext`, which gets the global blob, and `data`. `data` is replaced by `userData` when that is non-empty and kept otherwise. |
| FpdResolution.ApplyGlobalSite | firstpartydata/first_party_data.go:177-195 | The global step changes only the site's `ext` and its content's `data`. |
| FpdResolution.ApplyGlobalApp | firstpartydata/first_party_data.go:242-260 | The global step changes only the app's `ext` and its content's `data`. |
| FpdResolution.MergeUsers | firstpartydata/first_party_data.go:146-164 | Keywords, gender and year of birth come from the override, even when empty. `ext` is merged, and all other fields are the original's. |
| FpdResolution.MergeSites | firstpartydata/first_party_data.go:205-229 | Name, domain, cat, sectioncat, pagecat, page, search and keywords come from the override. `ext` is merged, and id, ref and content are the original's. |
| FpdResolution.MergeApps | firstpartydata/first_party_data.go:270-295 | Name, bundle, domain, storeurl, cat, sectioncat, pagecat, ver and keywords come from the override. `ext` is merged, and id and content are the original's. |
| FpdResolution.ResolveEntity | firstpartydata/first_party_data.go:112-144 | The result is absent (with no error) exactly when base and override are both absent. Without an override or participation it is the base. With an override, the reported error is the merge's alone. |
| FpdResolution.ResolveUser | firstpartydata/first_party_data.go:112-144 | The user is absent exactly when base and override are. Not participating and no override gives the base. Override fields win. With an override, `id` and `buyeruid` are the base's, `data` is the staged user's, and `ext` with its error is the override merged onto the staged `ext`. The staged user is the base after the global step when the bidder participates, else the base itself. An override without `ext` never reports an error. |
| FpdResolution.ResolveSite | firstpartydata/first_party_data.go:166-203 | The same precedence for the site, with its eight override fields taken from the override. With an override, id and ref are the base's, content is the staged site's, and `ext` with its error is the override merged onto the staged `ext`. The staged site is the base after the global step when the bidder participates, else the base itself. An override without `ext` never reports an error. Without participation, id, ref and content stay the base's. |
| FpdResolution.ResolveApp | firstpartydata/first_party_data.go:231-268 | The same precedence for the app, with its nine override fields taken from the override. With an override, id is the base's, content is the staged app's, and `ext` with its error is the override merged onto the staged `ext`. The staged app is the base after the global step when the bidder participates, else the base itself. An override without `ext` never reports an error. Without participation, id and content stay the base's. |
| FpdResolution.ResolveBidder | firstpartydata/first_party_data.go:87-107 | A bidder resolves exactly when user, app and site all resolve without error. Its entry holds the three results. A failure carries the user's error if there is one, else the app's, else the site's. |
| FpdResolution.ResolveInOrder | firstpartydata/first_party_data.go:83-108 | Resolving in a given order succeeds exactly when every bidder does. Its keys are the bidders visited, each bound to its own resolution. A failure carries the error of some bidder. |
| FpdResolution.BuildResolvedFpdForBidders | firstpartydata/first_party_data.go:70-110 | It succeeds exactly when every bidder resolves. The keys are those of the override map, and each entry holds the three resolved entities, with participation taken from the list. On failure no map is returned, and the error is one that some bidder produced. |
| FpdResolution.ResolutionIgnoresOrder | firstpartydata/first_party_data.go:83 | Two iteration orders agree on success, and on the resolved map when they succeed. |
| FpdScenarios.ExtPrecedenceChain | firstpartydata/first_party_data.go:124-164 | Take a base `{"a":1}`, a global blob `{"b":2}` and an override `{"a":null,"c":3}`. They resolve to `{"data":{"b":2},"c":3}` without error. |
| FpdScenarios.ParticipationDecidesGlobalData | firstpartydata/first_party_data.go:85 | Only a participating bidder gets the global `user.data`. A non-participant without an override gets the base unchanged. |
| FpdScenarios.LastBlockWinsEvenWhenEmpty | firstpartydata/first_party_data.go:323-334 | A later block's empty keywords replace an earlier block's `kw1`, and resolution copies the empty value over the base. |
| FpdScenarios.RecordResetDropsEarlierSite | firstpartydata/first_party_data.go:320-322 | For an unlisted bidder, an earlier block's site is lost when a later block sets only the app. A listed bidder keeps both. |
| FpdScenarios.GlobalMergeErrorIsLost | firstpartydata/first_party_data.go:138-143 | A global merge that fails on an unparsable base `ext` reports no error once an override without `ext` is merged. The user is left with no `ext`. |
| FpdScenarios.MalformedOverrideExtFailsWholePass | firstpartydata/first_party_data.go:89-92 | A bidder's unparsable override `ext`, merged into a parsed `ext`, fails the whole pass. |
| FpdScenarios.MalformedOverrideExtOntoEmptyPasses | firstpartydata/first_party_data.go:158-159 | The same unparsable override `ext` meets an empty `ext` instead. It is assigned, and the bidder resolves without error. |

## Left out

- Go pointer and slice aliasing. The structured arrays are shared, not copied. Every resolved
  site and app is a shallow copy of the base entity. So when the base has a `Content`, all of
  them share its `Content` pointer. When it has none, each participant gets a fresh `Content`
  (`first_party_data.go:191-192` and `:256-257`). When the base entity is nil, each resolved
  entity is fresh (`first_party_data.go:172` and `:237`).
- FpdResolution.ResolveSite: every resolved site copies the base site's `Content` pointer
  (`first_party_data.go:174` and `:209`). When the base site has a `Content` and
  `siteContentData` is non-empty, resolving any participating bidder writes the global array through that
  pointer (`first_party_data.go:188-189`). Once the map is returned, every resolved site that
  shares the pointer, and the base request's site, hold the global array in `content.data`,
  whatever the iteration order. The model gives a non-participating bidder the base's own
  `content.data` (for example an empty one), so it does not promise what Go returns then.
- FpdResolution.ResolveApp: the same holds for apps, with the pointer copied at
  `first_party_data.go:239` and `:274` and the write at `:253-254` with `appContentData`.
- FpdResolution.BuildResolvedFpdForBidders: because of those two writes, in Go the
  non-participants' `content.data` is the global array whenever the base entity has a
  `Content` and some listed bidder is resolved. The model resolves every bidder from the
  unmodified base, so each entry is that bidder's own resolution.
- Map iteration order in `BuildResolvedFPDForBidders`. It is nondeterministic in Go, so it is a
  parameter (`order`). The model states only that some bidder's error is returned.
- The two nil dereferences (panics) in `PreprocessBidderFPD` are excluded by the precondition
  `NoNilDereference`.
- Bytes and parsing. JSON fields are seen through their parse (`RawJson`). Member order,
  duplicate keys, whitespace and non-integer numbers (floating point) are not represented.
- The byte-level implementation of `jsonutil.FindAndDropElement` is not part of this model. It
  is replaced by removal at a path on the tree. A node that must be looked into but is not an
  object is treated as a malformed document. An empty path is excluded, since the engine always
  passes three names.
- `jsonpatch.MergePatch` is replaced by the algorithm of section 2 of RFC 7396. The library's
  own deviations are not modelled: rejecting a `null` document, its array fallback, and
  rejecting a patch that is neither an object nor an array.
- FpdResolution.MergeExt: an override `ext` such as `5`, merged into a non-empty `ext`, is an
  error in the library but gives `5` without error here, as RFC 7396 prescribes.
- FpdResolution.ApplyGlobalExt: the `{"data": blob}` patch is always an object. A base `ext`
  that parses but is not an object, such as `5`, agrees with the library: both replace it by
  `{"data": blob}` without error, apart from the library also pruning nulls inside arrays. A
  `null` base `ext` is an error in the library, but here it is treated as `{}` and becomes
  `{"data": blob}` without error.
- BuildExtData: a blob that does not parse is modelled as still unparsable once wrapped. A
  crafted blob such as `1,"x":2` would concatenate into well-formed bytes. The blobs the engine
  extracts are always whole JSON values.
- GetGlobalFpdData: on failure, the request bytes returned next to the error are not modelled,
  only the error.
- Nil versus empty slices are not distinguished. A non-nil empty `data` array that extraction
  leaves in place reads the same as the nil the code writes.
- Request objects carry only the fields the engine touches and a few representative others.
- The adcamp bidder adapter (HTTP request building, response parsing, builder wiring,
  configuration parsing and its media-type switch) is outside the engine and not modelled.

=== FILE: fpd_extraction.dfy ===
/** Extraction of global first-party data from the shared bid request: the raw `ext.data` blobs
    of site, app and user (firstpartydata/first_party_data.go `GetGlobalFPDData`) and the
    structured `data` arrays (`ExtractOpenRtbGlobalFPD`). */
module FpdExtraction {
  import opened Wrappers
  import opened Json
  import opened JsonUtil
  import opened OpenRtb
  import opened FpdKeys

  /** The place of an entity's raw first-party data: `<entity>.ext.data`. */
  function ExtDataPath(entity: string): seq<string> {
    [entity, ExtKey, DataKey]
  }

  /** A path that leads neither into nor above any of the three `ext.data` places. */
  ghost predicate AwayFromExtData(q: seq<string>) {
    && Disjoint(ExtDataPath(SiteKey), q)
    && Disjoint(ExtDataPath(AppKey), q)
    && Disjoint(ExtDataPath(UserKey), q)
  }

  /** Drops `site.ext.data`, `app.ext.data` and `user.ext.data` from the raw request, in that
      order, and returns the remaining request with the three dropped blobs keyed by entity
      (no bytes for an entity that had none). The first failing drop fails the whole call. */
  function GetGlobalFpdData(request: RawJson): (r: Result<(RawJson, map<string, RawJson>), JsonError>)
    ensures r.Success? ==> r.value.1.Keys == {SiteKey, AppKey, UserKey}
    ensures r.Failure? ==> r.error == MalformedDocument
  {
    var afterSite :- FindAndDropElement(request, ExtDataPath(SiteKey));
    var afterApp :- FindAndDropElement(afterSite.0, ExtDataPath(AppKey));
    var afterUser :- FindAndDropElement(afterApp.0, ExtDataPath(UserKey));
    Success((afterUser.0, map[SiteKey := afterSite.1, AppKey := afterApp.1, UserKey := afterUser.1]))
  }

  /** Paths that start with different members are disjoint. */
  lemma DisjointByHead(p: seq<string>, q: seq<string>)
    requires |p| > 0 && |q| > 0 && p[0] != q[0]
    ensures Disjoint(p, q)
  {
  }

  /** Dropping at `p` does not change whether a path starting elsewhere can be followed. */
  lemma DropKeepsTraversable(input: RawJson, p: seq<string>, q: seq<string>)
    requires |p| > 0 && |q| > 0 && p[0] != q[0]
    requires FindAndDropElement(input, p).Success?
    ensures Traversable(FindAndDropElement(input, p).value.0.value, q) <==> Traversable(input.value, q)
  {
  }

  /** What `GetGlobalFpdData` promises: it succeeds exactly when the request parses and each
      `ext.data` place can be followed; each returned blob is the value that stood at its
      entity's `ext.data` in the ORIGINAL request; none of the three places is left in the
      result; and everything away from them is unchanged. */
  lemma {:induction false} GetGlobalFpdDataSpec(request: RawJson)
    ensures GetGlobalFpdData(request).Success? <==>
      && request.WellFormed?
      && Traversable(request.value, ExtDataPath(SiteKey))
      && Traversable(request.value, ExtDataPath(AppKey))
      && Traversable(request.value, ExtDataPath(UserKey))
    ensures GetGlobalFpdData(request).Success? ==>
      var (rest, blobs) := GetGlobalFpdData(request).value;
      && rest.WellFormed?
      && (forall k | k in blobs :: blobs[k] == ToRaw(Lookup(request.value, ExtDataPath(k))))
      && (forall k | k in blobs :: Lookup(rest.value, ExtDataPath(k)).None?)
      && (forall q | AwayFromExtData(q) :: Lookup(rest.value, q) == Lookup(request.value, q))
  {
    var sp, ap, up := ExtDataPath(SiteKey), ExtDataPath(AppKey), ExtDataPath(UserKey);
    if request.WellFormed? && Traversable(request.value, sp) {
      var j := request.value;
      var s := FindAndDropElement(request, sp).value;
      DropKeepsTraversable(request, sp, ap);
      DropKeepsTraversable(request, sp, up);
      DisjointByHead(sp, ap);
      DisjointByHead(sp, up);
      if Traversable(j, ap) {
        var a := FindAndDropElement(s.0, ap).value;
        DropKeepsTraversable(s.0, ap, up);
        DisjointByHead(ap, sp);
        DisjointByHead(ap, up);
        if Traversable(j, up) {
          var u := FindAndDropElement(a.0, up).value;
          DisjointByHead(up, sp);
          DisjointByHead(up, ap);
          assert Lookup(u.0.value, sp) == Lookup(a.0.value, sp) == Lookup(s.0.value, sp);
          assert Lookup(u.0.value, ap) == Lookup(a.0.value, ap);
          forall q | AwayFromExtData(q)
            ensures Lookup(u.0.value, q) == Lookup(j, q)
          {
          }
        }
      }
    }
  }

  /** The structured data of the user (empty when there is no user). */
  function UserData(req: BidRequest): seq<Data> {
    if req.user.Some? then req.user.value.data else []
  }

  /** The structured data of the site's content (empty when there is no site or content). */
  function SiteContentData(req: BidRequest): seq<Data> {
    if req.site.Some? && req.site.value.content.Some? then req.site.value.content.value.data else []
  }

  /** The structured data of the app's content (empty when there is no app or content). */
  function AppContentData(req: BidRequest): seq<Data> {
    if req.app.Some? && req.app.value.content.Some? then req.app.value.content.value.data else []
  }

  /** Moves the non-empty `user.data`, `site.content.data` and `app.content.data` arrays out of
      the request into a map keyed `userData`, `siteContentData`, `appContentData`. */
  function ExtractOpenRtbGlobalFpd(req: BidRequest): (r: (BidRequest, map<string, seq<Data>>))
    ensures r.1.Keys <= {UserDataKey, SiteContentDataKey, AppContentDataKey}
    ensures UserDataKey in r.1 <==> |UserData(req)| > 0
    ensures SiteContentDataKey in r.1 <==> |SiteContentData(req)| > 0
    ensures AppContentDataKey in r.1 <==> |AppContentData(req)| > 0
    ensures UserDataKey in r.1 ==> r.1[UserDataKey] == UserData(req)
    ensures SiteContentDataKey in r.1 ==> r.1[SiteContentDataKey] == SiteContentData(req)
    ensures AppContentDataKey in r.1 ==> r.1[AppContentDataKey] == AppContentData(req)
    ensures UserData(r.0) == [] && SiteContentData(r.0) == [] && AppContentData(r.0) == []
    ensures r.0.id == req.id
    ensures r.0.user.Some? == req.user.Some? && r.0.site.Some? == req.site.Some? && r.0.app.Some? == req.app.Some?
  {
    var (req1, m1) :=
      if req.user.Some? && |req.user.value.data| > 0 then
        (req.(user := Some(req.user.value.(data := []))), map[UserDataKey := req.user.value.data])
      else (req, map[]);
    var (req2, m2) :=
      if req1.site.Some? && req1.site.value.content.Some? && |req1.site.value.content.value.data| > 0 then
        var site := req1.site.value;
        (req1.(site := Some(site.(content := Some(site.content.value.(data := []))))),
         m1[SiteContentDataKey := site.content.value.data])
      else (req1, m1);
    var (req3, m3) :=
      if req2.app.Some? && req2.app.value.content.Some? && |req2.app.value.content.value.data| > 0 then
        var app := req2.app.value;
        (req2.(app := Some(app.(content := Some(app.content.value.(data := []))))),
         m2[AppContentDataKey := app.content.value.data])
      else (req2, m2);
    (req3, m3)
  }

  /** Puts extracted structured arrays back into a request: the inverse of the extraction. */
  function RestoreOpenRtbGlobalFpd(req: BidRequest, fpd: map<string, seq<Data>>): BidRequest {
    var req1 :=
      if UserDataKey in fpd && req.user.Some? then
        req.(user := Some(req.user.value.(data := fpd[UserDataKey])))
      else req;
    var req2 :=
      if SiteContentDataKey in fpd && req1.site.Some? && req1.site.value.content.Some? then
        var site := req1.site.value;
        req1.(site := Some(site.(content := Some(site.content.value.(data := fpd[SiteContentDataKey])))))
      else req1;
    if AppContentDataKey in fpd && req2.app.Some? && req2.app.value.content.Some? then
      var app := req2.app.value;
      req2.(app := Some(app.(content := Some(app.content.value.(data := fpd[AppContentDataKey])))))
    else req2
  }

  /** Extraction loses nothing: restoring the extracted arrays gives back the original request,
      so the extraction changed no field other than the three arrays it moved. */
  lemma ExtractRestoreRoundTrip(req: BidRequest)
    ensures RestoreOpenRtbGlobalFpd(ExtractOpenRtbGlobalFpd(req).0, ExtractOpenRtbGlobalFpd(req).1) == req
  {
  }
}

=== FILE: fpd_keys.dfy ===
/** The keys the first-party-data engine uses: the JSON member names it removes and the keys of
    the maps it builds (the package constants of firstpartydata/first_party_data.go). */
module FpdKeys {
  const SiteKey := "site"
  const AppKey := "app"
  const UserKey := "user"
  const DataKey := "data"
  const ExtKey := "ext"

  const UserDataKey := "userData"
  const AppContentDataKey := "appContentData"
  const SiteContentDataKey := "siteContentData"
}

=== FILE: fpd_preprocess.dfy ===
/** Folding the bidder-scoped first-party data declarations of `ext.prebid` into one override
    record per bidder (firstpartydata/first_party_data.go `PreprocessBidderFPD`). */
module FpdPreprocess {
  import opened Wrappers
  import opened OpenRtb

  /** The bidders listed in `ext.prebid.data.bidders`. */
  function GlobalBidders(ext: ExtRequestPrebid): set<string> {
    if ext.data.Some? then NameSet(ext.data.value.bidders) else {}
  }

  /** The bidder-config blocks, in declaration order (none when the list is nil). */
  function Blocks(ext: ExtRequestPrebid): seq<BidderConfig> {
    ext.bidderConfigs.GetOr([])
  }

  /** The names of a list, as a set. */
  function NameSet(names: seq<string>): set<string> {
    set b | b in names
  }

  /** Every bidder named by some block. */
  function NamedIn(blocks: seq<BidderConfig>): set<string> {
    set i, b | 0 <= i < |blocks| && b in blocks[i].bidders :: b
  }

  /** The guard of the preprocessing branch: some bidder list or a block list is declared. */
  predicate DeclaresBidderFpd(ext: ExtRequestPrebid) {
    (ext.data.Some? && |ext.data.value.bidders| != 0) || ext.bidderConfigs.Some?
  }

  /** Inside the branch the source reads `data.bidders` and dereferences the block list, so a
      nil `data` or a nil block list there is a nil dereference. */
  predicate NoNilDereference(ext: ExtRequestPrebid) {
    DeclaresBidderFpd(ext) ==> ext.data.Some? && ext.bidderConfigs.Some?
  }

  /** What a block sets: its payload, or nothing when its config or payload is nil. */
  function Supplied(block: BidderConfig): FpdData {
    if block.config.Some? && block.config.value.fpdData.Some? then block.config.value.fpdData.value else NoFpd
  }

  /** Per sub-object, `later` where it sets one and `earlier` otherwise. */
  function Prefer(later: FpdData, earlier: FpdData): FpdData {
    FpdData(
      if later.site.Some? then later.site else earlier.site,
      if later.app.Some? then later.app else earlier.app,
      if later.user.Some? then later.user else earlier.user)
  }

  /** The precedence the comment at first_party_data.go:323-324 describes, where the last
      defined config takes precedence: for each of site, app and user, the value from the last
      block that names `bidder` and supplies it, else the one in `start`. */
  function LastSupplied(start: FpdData, blocks: seq<BidderConfig>, bidder: string): FpdData
    decreases |blocks|
  {
    if |blocks| == 0 then start
    else
      var earlier := LastSupplied(start, blocks[..|blocks| - 1], bidder);
      if bidder in blocks[|blocks| - 1].bidders then Prefer(Supplied(blocks[|blocks| - 1]), earlier) else earlier
  }

  /** The three sub-objects a record can carry. */
  datatype Part = SitePart | AppPart | UserPart

  /** `f` sets sub-object `p`. */
  predicate Sets(f: FpdData, p: Part) {
    match p
    case SitePart => f.site.Some?
    case AppPart => f.app.Some?
    case UserPart => f.user.Some?
  }

  /** `f` and `g` hold the same sub-object `p`. */
  predicate Agree(f: FpdData, g: FpdData, p: Part) {
    match p
    case SitePart => f.site == g.site
    case AppPart => f.app == g.app
    case UserPart => f.user == g.user
  }

  /** `block` names `bidder` and supplies sub-object `p`. */
  predicate SuppliesFor(block: BidderConfig, bidder: string, p: Part) {
    bidder in block.bidders && Sets(Supplied(block), p)
  }

  /** When block `i` is the last one that names `bidder` and supplies sub-object `p`,
      `LastSupplied` holds block `i`'s value for `p`. */
  lemma {:induction false} LastSupplierWins(start: FpdData, blocks: seq<BidderConfig>, bidder: string, p: Part, i: nat)
    requires i < |blocks| && SuppliesFor(blocks[i], bidder, p)
    requires forall j | i < j < |blocks| :: !SuppliesFor(blocks[j], bidder, p)
    ensures Agree(LastSupplied(start, blocks, bidder), Supplied(blocks[i]), p)
    decreases |blocks|
  {
    var n := |blocks| - 1;
    if i < n {
      assert !SuppliesFor(blocks[n], bidder, p);
      assert blocks[..n][i] == blocks[i];
      assert forall j | i < j < n :: blocks[..n][j] == blocks[j];
      LastSupplierWins(start, blocks[..n], bidder, p, i);
    }
  }

  /** When no block names `bidder` and supplies sub-object `p`, `LastSupplied` keeps `start`'s. */
  lemma {:induction false} NoSupplierKeepsStart(start: FpdData, blocks: seq<BidderConfig>, bidder: string, p: Part)
    requires forall j | 0 <= j < |blocks| :: !SuppliesFor(blocks[j], bidder, p)
    ensures Agree(LastSupplied(start, blocks, bidder), start, p)
    decreases |blocks|
  {
    if |blocks| > 0 {
      var n := |blocks| - 1;
      assert !SuppliesFor(blocks[n], bidder, p);
      assert forall j | 0 <= j < n :: blocks[..n][j] == blocks[j];
      NoSupplierKeepsStart(start, blocks[..n], bidder, p);
    }
  }

  /** The position of the last block naming `bidder`. */
  function LastNaming(blocks: seq<BidderConfig>, bidder: string): (i: nat)
    requires bidder in NamedIn(blocks)
    decreases |blocks|
    ensures i < |blocks| && bidder in blocks[i].bidders
    ensures forall j | i < j < |blocks| :: bidder !in blocks[j].bidders
  {
    var n := |blocks| - 1;
    if bidder in blocks[n].bidders then n
    else
      assert bidder in NamedIn(blocks[..n]) by {
        var i :| 0 <= i < |blocks| && bidder in blocks[i].bidders;
        assert blocks[..n][i] == blocks[i];
      }
      LastNaming(blocks[..n], bidder)
  }

  /** Splitting the named set at the last block. */
  lemma NamedInSnoc(blocks: seq<BidderConfig>)
    requires |blocks| > 0
    ensures NamedIn(blocks) == NamedIn(blocks[..|blocks| - 1]) + NameSet(blocks[|blocks| - 1].bidders)
  {
  }

  /** The in-place update for one block: every sub-object the block supplies overwrites the
      record's, the others are kept. */
  function Overlay(current: FpdData, block: BidderConfig): (r: FpdData)
    ensures r == Prefer(Supplied(block), current)
  {
    if block.config.Some? && block.config.value.fpdData.Some? then
      var fpd := block.config.value.fpdData.value;
      var withSite := if fpd.site.Some? then current.(site := fpd.site) else current;
      var withApp := if fpd.app.Some? then withSite.(app := fpd.app) else withSite;
      if fpd.user.Some? then withApp.(user := fpd.user) else withApp
    else current
  }

  /** One named bidder of a block: a bidder outside `listed` starts again from an empty record,
      then the block's sub-objects are laid over the record. */
  function ApplyName(table: map<string, FpdData>, listed: set<string>, bidder: string, block: BidderConfig): map<string, FpdData>
    requires listed <= table.Keys
  {
    var current := if bidder in listed then table[bidder] else NoFpd;
    table[bidder := Overlay(current, block)]
  }

  /** The bidders of one block, in order. */
  function ApplyNames(table: map<string, FpdData>, listed: set<string>, names: seq<string>, block: BidderConfig): (r: map<string, FpdData>)
    requires listed <= table.Keys
    decreases |names|
    ensures r.Keys == table.Keys + NameSet(names)
    ensures forall b | b in names :: r[b] == Prefer(Supplied(block), if b in listed then table[b] else NoFpd)
    ensures forall b | b in table && b !in names :: r[b] == table[b]
  {
    if |names| == 0 then table
    else
      var earlier := ApplyNames(table, listed, names[..|names| - 1], block);
      assert forall b | b in names[..|names| - 1] :: b in names;
      assert forall b | b in names :: b in names[..|names| - 1] || b == names[|names| - 1];
      ApplyName(earlier, listed, names[|names| - 1], block)
  }

  /** The blocks, in order. */
  function ApplyBlocks(table: map<string, FpdData>, listed: set<string>, blocks: seq<BidderConfig>): (r: map<string, FpdData>)
    requires listed <= table.Keys
    decreases |blocks|
    ensures r.Keys == table.Keys + NamedIn(blocks)
    ensures forall b | b in listed :: r[b] == LastSupplied(table[b], blocks, b)
    ensures forall b | b in NamedIn(blocks) && b !in listed :: r[b] == Supplied(blocks[LastNaming(blocks, b)])
  {
    if |blocks| == 0 then table
    else
      var n := |blocks| - 1;
      var earlier := ApplyBlocks(table, listed, blocks[..n]);
      NamedInSnoc(blocks);
      var r := ApplyNames(earlier, listed, blocks[n].bidders, blocks[n]);
      assert forall b | b in listed :: r[b] == LastSupplied(table[b], blocks, b);
      assert forall b | b in NamedIn(blocks) && b !in listed :: r[b] == Supplied(blocks[LastNaming(blocks, b)]) by {
        forall b | b in NamedIn(blocks) && b !in listed
          ensures r[b] == Supplied(blocks[LastNaming(blocks, b)])
        {
          if b !in blocks[n].bidders {
            assert blocks[..n][LastNaming(blocks[..n], b)] == blocks[LastNaming(blocks, b)];
          }
        }
      }
      r
  }

  /** Folds `ext.prebid.data.bidders` and the ordered bidder-config blocks into one override
      record per bidder, and clears both declarations from the extension. */
  function PreprocessBidderFpd(ext: ExtRequestPrebid): (r: (map<string, FpdData>, ExtRequestPrebid))
    requires NoNilDereference(ext)
    ensures r.0.Keys == GlobalBidders(ext) + NamedIn(Blocks(ext))
    ensures forall b | b in GlobalBidders(ext) :: r.0[b] == LastSupplied(NoFpd, Blocks(ext), b)
    ensures forall b | b in NamedIn(Blocks(ext)) && b !in GlobalBidders(ext) ::
      r.0[b] == Supplied(Blocks(ext)[LastNaming(Blocks(ext), b)])
    ensures r.1.bidderConfigs.None?
    ensures r.1.data.Some? <==> ext.data.Some?
    ensures r.1.data.Some? ==> r.1.data.value == ext.data.value.(bidders := [])
    ensures r.1.debug == ext.debug
  {
    var table :=
      if DeclaresBidderFpd(ext) then
        var listed := NameSet(ext.data.value.bidders);
        ApplyBlocks(map b | b in listed :: NoFpd, listed, ext.bidderConfigs.value)
      else map[];
    var cleaned := ext.(
      bidderConfigs := None,
      data := if ext.data.Some? then Some(ext.data.value.(bidders := [])) else None);
    (table, cleaned)
  }
}

=== FILE: fpd_resolution.dfy ===
/** Per-bidder resolution of User, App and Site (firstpartydata/first_party_data.go
    `BuildResolvedFPDForBidders`, `resolveUser`/`resolveSite`/`resolveApp`,
    `mergeUsers`/`mergeSites`/`mergeApps` and `buildExtData`). The precedence is: the base
    entity, then the global first-party data when the bidder may see it, then the bidder's
    override, which replaces a fixed list of fields and merge-patches `ext`. */
module FpdResolution {
  import opened Wrappers
  import opened Json
  import opened JsonPatch
  import opened OpenRtb
  import opened FpdKeys

  /** A value returned together with an error. The source returns both halves of the pair even
      when the error is set, and its callers look at the error first. */
  datatype ValueErr<T> = ValueErr(value: T, err: Option<JsonError>)

  /** A raw blob by key; a missing key reads as no bytes, like a Go map lookup. */
  function RawAt(m: map<string, RawJson>, k: string): RawJson {
    if k in m then m[k] else NoBytes
  }

  /** A structured array by key; a missing key reads as empty. */
  function DataAt(m: map<string, seq<Data>>, k: string): seq<Data> {
    if k in m then m[k] else []
  }

  /** The object `{"data": v}`. */
  function DataObject(v: Json): Json {
    Obj(map[DataKey := v])
  }

  /** `buildExtData`: the bytes `{"data":` + blob + `}`. They parse exactly when the blob does
      (an empty blob gives `{"data":}`), and then hold the blob under `data` and nothing else. */
  function BuildExtData(blob: RawJson): (r: RawJson)
    ensures r.WellFormed? <==> blob.WellFormed?
    ensures blob.WellFormed? ==> r.value.Obj? && r.value.fields.Keys == {DataKey}
    ensures blob.WellFormed? ==> Lookup(r.value, [DataKey]) == Some(blob.value)
    ensures !r.IsEmpty()
  {
    match blob
    case WellFormed(j) => WellFormed(DataObject(j))
    case _ => Malformed
  }

  /** The `ext` update the three merges share: an empty patch changes nothing; a patch onto an
      empty `ext` is assigned verbatim (so `null` members in it survive); otherwise the patch is
      merge-patched in, and a failed merge leaves no bytes and reports the error. */
  function MergeExt(target: RawJson, patch: RawJson): (r: ValueErr<RawJson>)
    ensures patch.IsEmpty() ==> r == ValueErr(target, None)
    ensures !patch.IsEmpty() && target.IsEmpty() ==> r == ValueErr(patch, None)
    ensures !patch.IsEmpty() && !target.IsEmpty() ==> (r.err.None? <==> target.WellFormed? && patch.WellFormed?)
    ensures !patch.IsEmpty() && !target.IsEmpty() && r.err.None? ==>
      r.value == WellFormed(MergePatch(target.value, patch.value))
    ensures r.err.Some? ==> r.value.IsEmpty() && r.err.value != MalformedDocument
  {
    if patch.IsEmpty() then ValueErr(target, None)
    else if target.IsEmpty() then ValueErr(patch, None)
    else
      match MergePatchRaw(target, patch)
      case Success(j) => ValueErr(WellFormed(j), None)
      case Failure(e) => ValueErr(NoBytes, Some(e))
  }

  /** The global `ext` step: a non-empty blob is wrapped as `{"data": blob}` and then either
      assigned (empty `ext`) or merge-patched into `ext`. */
  function ApplyGlobalExt(ext: RawJson, blob: RawJson): (r: ValueErr<RawJson>)
    ensures blob.IsEmpty() ==> r == ValueErr(ext, None)
    ensures blob.WellFormed? && ext.IsEmpty() ==> r == ValueErr(WellFormed(DataObject(blob.value)), None)
    ensures blob.Malformed? && ext.IsEmpty() ==> r == ValueErr(Malformed, None)
    ensures !blob.IsEmpty() && !ext.IsEmpty() ==> (r.err.None? <==> ext.WellFormed? && blob.WellFormed?)
    ensures !blob.IsEmpty() && ext.WellFormed? && blob.WellFormed? ==>
      r.value == WellFormed(MergePatch(ext.value, DataObject(blob.value)))
    ensures r.err.Some? ==> r.value.IsEmpty()
  {
    if blob.IsEmpty() then ValueErr(ext, None)
    else MergeExt(ext, BuildExtData(blob))
  }

  /** Assigning a patch verbatim to an empty `ext` gives what merge-patching it into `{}` gives
      exactly when the patch has no `null` member: the shortcut lets nulls through. */
  lemma ExtShortcutKeepsNulls(patch: Json)
    ensures MergeExt(NoBytes, WellFormed(patch)).value == WellFormed(MergePatch(Obj(map[]), patch)) <==> NullFree(patch)
  {
    MergeIntoEmptyIsIdentity(patch);
  }

  /** The global step for a `Content`-carrying entity: non-empty structured data becomes the
      content's `data`, creating an otherwise empty `Content` when there is none. */
  function ContentWithData(content: Option<Content>, global: seq<Data>): (r: Option<Content>)
    ensures |global| == 0 ==> r == content
    ensures |global| > 0 ==> r.Some? && r.value.data == global
    ensures |global| > 0 && content.Some? ==> r.value.(data := content.value.data) == content.value
    ensures |global| > 0 && content.None? ==> r.value == EmptyContent.(data := global)
  {
    if |global| == 0 then content
    else if content.Some? then Some(content.value.(data := global))
    else Some(EmptyContent.(data := global))
  }

  /** The global step on a user: the `user` blob goes into `ext`, `userData` replaces `data`;
      nothing else changes. */
  function ApplyGlobalUser(user: User, globalFpd: map<string, RawJson>, structured: map<string, seq<Data>>): (r: ValueErr<User>)
    ensures r.value.(ext := user.ext, data := user.data) == user
    ensures ValueErr(r.value.ext, r.err) == ApplyGlobalExt(user.ext, RawAt(globalFpd, UserKey))
    ensures |DataAt(structured, UserDataKey)| > 0 ==> r.value.data == DataAt(structured, UserDataKey)
    ensures |DataAt(structured, UserDataKey)| == 0 ==> r.value.data == user.data
  {
    var ext := ApplyGlobalExt(user.ext, RawAt(globalFpd, UserKey));
    var global := DataAt(structured, UserDataKey);
    ValueErr(user.(ext := ext.value, data := if |global| > 0 then global else user.data), ext.err)
  }

  /** The global step on a site: the `site` blob goes into `ext`, `siteContentData` into the
      content; nothing else changes. */
  function ApplyGlobalSite(site: Site, globalFpd: map<string, RawJson>, structured: map<string, seq<Data>>): (r: ValueErr<Site>)
    ensures r.value.(ext := site.ext, content := site.content) == site
    ensures ValueErr(r.value.ext, r.err) == ApplyGlobalExt(site.ext, RawAt(globalFpd, SiteKey))
    ensures r.value.content == ContentWithData(site.content, DataAt(structured, SiteContentDataKey))
  {
    var ext := ApplyGlobalExt(site.ext, RawAt(globalFpd, SiteKey));
    ValueErr(site.(ext := ext.value, content := ContentWithData(site.content, DataAt(structured, SiteContentDataKey))), ext.err)
  }

  /** The global step on an app: the `app` blob goes into `ext`, `appContentData` into the
      content; nothing else changes. */
  function ApplyGlobalApp(app: App, globalFpd: map<string, RawJson>, structured: map<string, seq<Data>>): (r: ValueErr<App>)
    ensures r.value.(ext := app.ext, content := app.content) == app
    ensures ValueErr(r.value.ext, r.err) == ApplyGlobalExt(app.ext, RawAt(globalFpd, AppKey))
    ensures r.value.content == ContentWithData(app.content, DataAt(structured, AppContentDataKey))
  {
    var ext := ApplyGlobalExt(app.ext, RawAt(globalFpd, AppKey));
    ValueErr(app.(ext := ext.value, content := ContentWithData(app.content, DataAt(structured, AppContentDataKey))), ext.err)
  }

  /** `mergeUsers`: keywords, gender and year of birth are taken from the override even when
      empty or zero, `ext` is merged, every other field is the original's. */
  function MergeUsers(original: User, override: User): (r: ValueErr<User>)
    ensures r.value.keywords == override.keywords
    ensures r.value.gender == override.gender
    ensures r.value.yob == override.yob
    ensures r.value.(keywords := original.keywords, gender := original.gender, yob := original.yob, ext := original.ext) == original
    ensures ValueErr(r.value.ext, r.err) == MergeExt(original.ext, override.ext)
  {
    var ext := MergeExt(original.ext, override.ext);
    ValueErr(original.(keywords := override.keywords, gender := override.gender, yob := override.yob, ext := ext.value), ext.err)
  }

  /** `mergeSites`: name, domain, cat, sectioncat, pagecat, page, search and keywords are taken
      from the override, `ext` is merged, every other field is the original's. */
  function MergeSites(original: Site, override: Site): (r: ValueErr<Site>)
    ensures r.value.name == override.name && r.value.domain == override.domain
    ensures r.value.cat == override.cat && r.value.sectionCat == override.sectionCat && r.value.pageCat == override.pageCat
    ensures r.value.page == override.page && r.value.search == override.search && r.value.keywords == override.keywords
    ensures r.value.id == original.id && r.value.ref == original.ref && r.value.content == original.content
    ensures ValueErr(r.value.ext, r.err) == MergeExt(original.ext, override.ext)
  {
    var ext := MergeExt(original.ext, override.ext);
    ValueErr(original.(
      name := override.name,
      domain := override.domain,
      cat := override.cat,
      sectionCat := override.sectionCat,
      pageCat := override.pageCat,
      page := override.page,
      search := override.search,
      keywords := override.keywords,
      ext := ext.value), ext.err)
  }

  /** `mergeApps`: name, bundle, domain, storeurl, cat, sectioncat, pagecat, ver and keywords are
      taken from the override, `ext` is merged, every other field is the original's. */
  function MergeApps(original: App, override: App): (r: ValueErr<App>)
    ensures r.value.name == override.name && r.value.bundle == override.bundle && r.value.domain == override.domain
    ensures r.value.storeUrl == override.storeUrl && r.value.ver == override.ver && r.value.keywords == override.keywords
    ensures r.value.cat == override.cat && r.value.sectionCat == override.sectionCat && r.value.pageCat == override.pageCat
    ensures r.value.id == original.id && r.value.content == original.content
    ensures ValueErr(r.value.ext, r.err) == MergeExt(original.ext, override.ext)
  {
    var ext := MergeExt(original.ext, override.ext);
    ValueErr(original.(
      name := override.name,
      bundle := override.bundle,
      domain := override.domain,
      storeUrl := override.storeUrl,
      cat := override.cat,
      sectionCat := override.sectionCat,
      pageCat := override.pageCat,
      ver := override.ver,
      keywords := override.keywords,
      ext := ext.value), ext.err)
  }

  /** The shape `resolveUser`, `resolveSite` and `resolveApp` share: nothing when there is
      neither a base nor an override; else start from the base (or the empty entity), apply the
      global step when the bidder participates, then merge the override if there is one. The
      error reported is that of the LAST step run: with an override present, the global step's
      error is overwritten by the merge's. */
  function ResolveEntity<T>(
    override: Option<T>, base: Option<T>, empty: T, hasGlobalFpd: bool,
    global: T -> ValueErr<T>, merge: (T, T) -> ValueErr<T>): (r: ValueErr<Option<T>>)
    ensures r.value.None? <==> base.None? && override.None?
    ensures r.value.None? ==> r.err.None?
    ensures override.None? && !hasGlobalFpd ==> r == ValueErr(base, None)
    ensures override.None? && hasGlobalFpd && base.Some? ==>
      r == ValueErr(Some(global(base.value).value), global(base.value).err)
    ensures override.Some? ==>
      var staged := if hasGlobalFpd then global(base.GetOr(empty)).value else base.GetOr(empty);
      r == ValueErr(Some(merge(staged, override.value).value), merge(staged, override.value).err)
  {
    if base.None? && override.None? then ValueErr(None, None)
    else
      var start := base.GetOr(empty);
      var staged := if hasGlobalFpd then global(start) else ValueErr(start, None);
      if override.Some? then
        var merged := merge(staged.value, override.value);
        ValueErr(Some(merged.value), merged.err)
      else ValueErr(Some(staged.value), staged.err)
  }

  /** `resolveUser`. */
  function ResolveUser(override: Option<User>, base: Option<User>, globalFpd: map<string, RawJson>,
                       structured: map<string, seq<Data>>, hasGlobalFpd: bool): (r: ValueErr<Option<User>>)
    ensures r.value.None? <==> base.None? && override.None?
    ensures r.value.None? ==> r.err.None?
    ensures override.None? && !hasGlobalFpd ==> r == ValueErr(base, None)
    ensures override.None? && hasGlobalFpd && base.Some? ==>
      r.value == Some(ApplyGlobalUser(base.value, globalFpd, structured).value) &&
      r.err == ApplyGlobalUser(base.value, globalFpd, structured).err
    ensures override.Some? ==>
      && r.value.value.keywords == override.value.keywords
      && r.value.value.gender == override.value.gender
      && r.value.value.yob == override.value.yob
    ensures override.Some? && override.value.ext.IsEmpty() ==> r.err.None?
    ensures override.Some? && !hasGlobalFpd ==>
      r.value.value.(keywords := base.GetOr(EmptyUser).keywords, gender := base.GetOr(EmptyUser).gender,
                     yob := base.GetOr(EmptyUser).yob, ext := base.GetOr(EmptyUser).ext) == base.GetOr(EmptyUser)
    ensures override.Some? ==>
      var staged := if hasGlobalFpd then ApplyGlobalUser(base.GetOr(EmptyUser), globalFpd, structured).value
                    else base.GetOr(EmptyUser);
      && r.value.value.data == staged.data
      && ValueErr(r.value.value.ext, r.err) == MergeExt(staged.ext, override.value.ext)
    ensures override.Some? ==>
      && r.value.value.id == base.GetOr(EmptyUser).id
      && r.value.value.buyerUid == base.GetOr(EmptyUser).buyerUid
  {
    ResolveEntity(override, base, EmptyUser, hasGlobalFpd,
      u => ApplyGlobalUser(u, globalFpd, structured), (o, f) => MergeUsers(o, f))
  }

  /** `resolveSite`. */
  function ResolveSite(override: Option<Site>, base: Option<Site>, globalFpd: map<string, RawJson>,
                       structured: map<string, seq<Data>>, hasGlobalFpd: bool): (r: ValueErr<Option<Site>>)
    ensures r.value.None? <==> base.None? && override.None?
    ensures r.value.None? ==> r.err.None?
    ensures override.None? && !hasGlobalFpd ==> r == ValueErr(base, None)
    ensures override.None? && hasGlobalFpd && base.Some? ==>
      r.value == Some(ApplyGlobalSite(base.value, globalFpd, structured).value) &&
      r.err == ApplyGlobalSite(base.value, globalFpd, structured).err
    ensures override.Some? ==>
      && r.value.value.name == override.value.name
      && r.value.value.domain == override.value.domain
      && r.value.value.cat == override.value.cat
      && r.value.value.sectionCat == override.value.sectionCat
      && r.value.value.pageCat == override.value.pageCat
      && r.value.value.page == override.value.page
      && r.value.value.search == override.value.search
      && r.value.value.keywords == override.value.keywords
    ensures override.Some? && override.value.ext.IsEmpty() ==> r.err.None?
    ensures override.Some? && !hasGlobalFpd ==>
      && r.value.value.id == base.GetOr(EmptySite).id
      && r.value.value.ref == base.GetOr(EmptySite).ref
      && r.value.value.content == base.GetOr(EmptySite).content
    ensures override.Some? ==>
      var staged := if hasGlobalFpd then ApplyGlobalSite(base.GetOr(EmptySite), globalFpd, structured).value
                    else base.GetOr(EmptySite);
      && r.value.value.content == staged.content
      && ValueErr(r.value.value.ext, r.err) == MergeExt(staged.ext, override.value.ext)
    ensures override.Some? ==>
      && r.value.value.id == base.GetOr(EmptySite).id
      && r.value.value.ref == base.GetOr(EmptySite).ref
  {
    ResolveEntity(override, base, EmptySite, hasGlobalFpd,
      s => ApplyGlobalSite(s, globalFpd, structured), (o, f) => MergeSites(o, f))
  }

  /** `resolveApp`. */
  function ResolveApp(override: Option<App>, base: Option<App>, globalFpd: map<string, RawJson>,
                      structured: map<string, seq<Data>>, hasGlobalFpd: bool): (r: ValueErr<Option<App>>)
    ensures r.value.None? <==> base.None? && override.None?
    ensures r.value.None? ==> r.err.None?
    ensures override.None? && !hasGlobalFpd ==> r == ValueErr(base, None)
    ensures override.None? && hasGlobalFpd && base.Some? ==>
      r.value == Some(ApplyGlobalApp(base.value, globalFpd, structured).value) &&
      r.err == ApplyGlobalApp(base.value, globalFpd, structured).err
    ensures override.Some? ==>
      && r.value.value.name == override.value.name
      && r.value.value.bundle == override.value.bundle
      && r.value.value.domain == override.value.domain
      && r.value.value.storeUrl == override.value.storeUrl
      && r.value.value.cat == override.value.cat
      && r.value.value.sectionCat == override.value.sectionCat
      && r.value.value.pageCat == override.value.pageCat
      && r.value.value.ver == override.value.ver
      && r.value.value.keywords == override.value.keywords
    ensures override.Some? && override.value.ext.IsEmpty() ==> r.err.None?
    ensures override.Some? && !hasGlobalFpd ==>
      && r.value.value.id == base.GetOr(EmptyApp).id
      && r.value.value.content == base.GetOr(EmptyApp).content
    ensures override.Some? ==>
      var staged := if hasGlobalFpd then ApplyGlobalApp(base.GetOr(EmptyApp), globalFpd, structured).value
                    else base.GetOr(EmptyApp);
      && r.value.value.content == staged.content
      && ValueErr(r.value.value.ext, r.err) == MergeExt(staged.ext, override.value.ext)
    ensures override.Some? ==>
      r.value.value.id == base.GetOr(EmptyApp).id
  {
    ResolveEntity(override, base, EmptyApp, hasGlobalFpd,
      a => ApplyGlobalApp(a, globalFpd, structured), (o, f) => MergeApps(o, f))
  }

  /** One bidder's entry: user, then app, then site; the first error aborts, so the error
      reported is the user's if any, else the app's, else the site's. */
  function ResolveBidder(fpd: FpdData, req: BidRequest, globalFpd: map<string, RawJson>,
                         structured: map<string, seq<Data>>, hasGlobalFpd: bool): (r: Result<FpdData, JsonError>)
    ensures
      var user := ResolveUser(fpd.user, req.user, globalFpd, structured, hasGlobalFpd);
      var app := ResolveApp(fpd.app, req.app, globalFpd, structured, hasGlobalFpd);
      var site := ResolveSite(fpd.site, req.site, globalFpd, structured, hasGlobalFpd);
      && (r.Success? <==> user.err.None? && app.err.None? && site.err.None?)
      && (r.Success? ==> r.value == FpdData(site.value, app.value, user.value))
      && (r.Failure? ==> Some(r.error) in [user.err, app.err, site.err])
      && (user.err.Some? ==> r == Failure(user.err.value))
      && (user.err.None? && app.err.Some? ==> r == Failure(app.err.value))
      && (user.err.None? && app.err.None? && site.err.Some? ==> r == Failure(site.err.value))
  {
    var user := ResolveUser(fpd.user, req.user, globalFpd, structured, hasGlobalFpd);
    if user.err.Some? then Failure(user.err.value)
    else
      var app := ResolveApp(fpd.app, req.app, globalFpd, structured, hasGlobalFpd);
      if app.err.Some? then Failure(app.err.value)
      else
        var site := ResolveSite(fpd.site, req.site, globalFpd, structured, hasGlobalFpd);
        if site.err.Some? then Failure(site.err.value)
        else Success(FpdData(site.value, app.value, user.value))
  }

  /** `order` lists each key of `keys` exactly once: one run of Go's map iteration. */
  predicate IsEnumeration(order: seq<string>, keys: set<string>) {
    && (forall i | 0 <= i < |order| :: order[i] in keys)
    && (forall b | b in keys :: b in order)
    && (forall i, j | 0 <= i < j < |order| :: order[i] != order[j])
  }

  /** The bidders in `order`, one after another; the first failing bidder aborts the pass. */
  function ResolveInOrder(order: seq<string>, fpdBidderData: map<string, FpdData>, req: BidRequest,
                          globalFpd: map<string, RawJson>, structured: map<string, seq<Data>>,
                          participants: set<string>): (r: Result<map<string, FpdData>, JsonError>)
    requires forall i | 0 <= i < |order| :: order[i] in fpdBidderData
    decreases |order|
    ensures r.Success? <==> forall i | 0 <= i < |order| ::
      ResolveBidder(fpdBidderData[order[i]], req, globalFpd, structured, order[i] in participants).Success?
    ensures r.Success? ==> r.value.Keys == set i | 0 <= i < |order| :: order[i]
    ensures r.Success? ==> forall b | b in r.value ::
      r.value[b] == ResolveBidder(fpdBidderData[b], req, globalFpd, structured, b in participants).value
    ensures r.Failure? ==> exists i | 0 <= i < |order| ::
      ResolveBidder(fpdBidderData[order[i]], req, globalFpd, structured, order[i] in participants) == Failure(r.error)
  {
    if |order| == 0 then Success(map[])
    else
      var b := order[0];
      var entry :- ResolveBidder(fpdBidderData[b], req, globalFpd, structured, b in participants);
      var rest :- ResolveInOrder(order[1..], fpdBidderData, req, globalFpd, structured, participants);
      assert (set i | 0 <= i < |order| :: order[i]) == {b} + set i | 0 <= i < |order[1..]| :: order[1..][i];
      Success(rest[b := entry])
  }

  /** `BuildResolvedFPDForBidders`: resolves every bidder of `fpdBidderData`, each seeing the
      global data exactly when it is listed in `biddersWithGlobalFpd`. `order` is the order in
      which the map happens to be iterated; it decides only which error surfaces. */
  function BuildResolvedFpdForBidders(req: BidRequest, fpdBidderData: map<string, FpdData>,
                                      globalFpd: map<string, RawJson>, structured: map<string, seq<Data>>,
                                      biddersWithGlobalFpd: seq<string>, order: seq<string>): (r: Result<map<string, FpdData>, JsonError>)
    requires IsEnumeration(order, fpdBidderData.Keys)
    ensures r.Success? <==> forall b | b in fpdBidderData ::
      ResolveBidder(fpdBidderData[b], req, globalFpd, structured, b in biddersWithGlobalFpd).Success?
    ensures r.Success? ==> r.value.Keys == fpdBidderData.Keys
    ensures r.Success? ==> forall b | b in r.value ::
      && r.value[b].user == ResolveUser(fpdBidderData[b].user, req.user, globalFpd, structured, b in biddersWithGlobalFpd).value
      && r.value[b].app == ResolveApp(fpdBidderData[b].app, req.app, globalFpd, structured, b in biddersWithGlobalFpd).value
      && r.value[b].site == ResolveSite(fpdBidderData[b].site, req.site, globalFpd, structured, b in biddersWithGlobalFpd).value
    ensures r.Failure? ==> exists b | b in fpdBidderData ::
      ResolveBidder(fpdBidderData[b], req, globalFpd, structured, b in biddersWithGlobalFpd) == Failure(r.error)
  {
    var participants := set b | b in biddersWithGlobalFpd;
    var r := ResolveInOrder(order, fpdBidderData, req, globalFpd, structured, participants);
    EnumerationCovers(order, fpdBidderData, req, globalFpd, structured, participants);
    r
  }

  /** Helper for `BuildResolvedFpdForBidders`: over an enumeration, "every position" is
      "every key". */
  lemma EnumerationCovers(order: seq<string>, fpdBidderData: map<string, FpdData>, req: BidRequest,
                          globalFpd: map<string, RawJson>, structured: map<string, seq<Data>>,
                          participants: set<string>)
    requires IsEnumeration(order, fpdBidderData.Keys)
    ensures var r := ResolveInOrder(order, fpdBidderData, req, globalFpd, structured, participants);
      && (r.Success? <==> forall b | b in fpdBidderData ::
            ResolveBidder(fpdBidderData[b], req, globalFpd, structured, b in participants).Success?)
      && (r.Success? ==> r.value.Keys == fpdBidderData.Keys)
      && (r.Failure? ==> exists b | b in fpdBidderData ::
            ResolveBidder(fpdBidderData[b], req, globalFpd, structured, b in participants) == Failure(r.error))
  {
  }

  /** The iteration order never changes whether the pass succeeds, nor its result when it does. */
  lemma ResolutionIgnoresOrder(req: BidRequest, fpdBidderData: map<string, FpdData>,
                               globalFpd: map<string, RawJson>, structured: map<string, seq<Data>>,
                               biddersWithGlobalFpd: seq<string>, order1: seq<string>, order2: seq<string>)
    requires IsEnumeration(order1, fpdBidderData.Keys) && IsEnumeration(order2, fpdBidderData.Keys)
    ensures
      var r1 := BuildResolvedFpdForBidders(req, fpdBidderData, globalFpd, structured, biddersWithGlobalFpd, order1);
      var r2 := BuildResolvedFpdForBidders(req, fpdBidderData, globalFpd, structured, biddersWithGlobalFpd, order2);
      r1.Success? == r2.Success? && (r1.Success? ==> r1.value == r2.value)
  {
  }
}

=== FILE: fpd_scenarios.dfy ===
/** Worked consequences of the model: the precedence chain on `ext`, the participation list,
    last-block-wins, and the three behaviours of the source that a reader might not expect
    (the `ext` shortcut, the lost global error, the record reset). */
module FpdScenarios {
  import opened Wrappers
  import opened Json
  import opened JsonPatch
  import opened OpenRtb
  import opened FpdKeys
  import opened FpdPreprocess
  import opened FpdResolution

  /** Base `user.ext = {"a":1}`, global user blob `{"b":2}`, override `ext = {"a":null,"c":3}`:
      the global blob lands under `data`, then the override deletes `a` and adds `c`. */
  lemma ExtPrecedenceChain()
    ensures
      var base := EmptyUser.(ext := WellFormed(Obj(map["a" := Num(1)])));
      var override := EmptyUser.(ext := WellFormed(Obj(map["a" := Null, "c" := Num(3)])));
      var globalFpd := map[UserKey := WellFormed(Obj(map["b" := Num(2)]))];
      var r := ResolveUser(Some(override), Some(base), globalFpd, map[], true);
      r.err.None? && r.value == Some(EmptyUser.(ext := WellFormed(Obj(map["data" := Obj(map["b" := Num(2)]), "c" := Num(3)]))))
  {
    var staged := Obj(map["a" := Num(1), "data" := Obj(map["b" := Num(2)])]);
    GlobalBlobUnderData();
    OverrideDeletesAndAdds();
    var globalFpd := map[UserKey := WellFormed(Obj(map["b" := Num(2)]))];
    var base := EmptyUser.(ext := WellFormed(Obj(map["a" := Num(1)])));
    assert ApplyGlobalUser(base, globalFpd, map[]).value == EmptyUser.(ext := WellFormed(staged));
  }

  /** First step of `ExtPrecedenceChain`: the global blob wrapped under `data`, merged into the base. */
  lemma GlobalBlobUnderData()
    ensures MergePatch(Obj(map["a" := Num(1)]), DataObject(Obj(map["b" := Num(2)])))
         == Obj(map["a" := Num(1), "data" := Obj(map["b" := Num(2)])])
  {
    var inner := MergePatch(Null, Obj(map["b" := Num(2)]));
    assert inner.fields == map["b" := Num(2)];
    var r := MergePatch(Obj(map["a" := Num(1)]), DataObject(Obj(map["b" := Num(2)])));
    assert r.fields.Keys == {"a", "data"};
    assert r.fields == map["a" := Num(1), "data" := Obj(map["b" := Num(2)])];
  }

  /** Second step of `ExtPrecedenceChain`: the override's `null` deletes `a`, its `c` is added. */
  lemma OverrideDeletesAndAdds()
    ensures MergePatch(Obj(map["a" := Num(1), "data" := Obj(map["b" := Num(2)])]), Obj(map["a" := Null, "c" := Num(3)]))
         == Obj(map["data" := Obj(map["b" := Num(2)]), "c" := Num(3)])
  {
  }

  /** Of two bidders without overrides, only the one on the participation list sees the global
      `user.data` array. */
  lemma ParticipationDecidesGlobalData(base: User, segments: seq<Data>)
    requires |segments| > 0
    ensures ResolveUser(None, Some(base), map[], map[UserDataKey := segments], true).value.value.data == segments
    ensures ResolveUser(None, Some(base), map[], map[UserDataKey := segments], false).value == Some(base)
  {
  }

  /** An earlier block sets keywords `kw1`, a later block naming the same bidder sets them to
      empty: the empty value wins, and resolution copies it over the base's keywords. */
  lemma LastBlockWinsEvenWhenEmpty(base: User)
    ensures
      var early := BidderConfig(["x"], Some(Config(Some(FpdData(None, None, Some(EmptyUser.(keywords := "kw1")))))));
      var late := BidderConfig(["x"], Some(Config(Some(FpdData(None, None, Some(EmptyUser))))));
      var table := PreprocessBidderFpd(ExtRequestPrebid(false, Some(PrebidData([], ["x"])), Some([early, late]))).0;
      "x" in table && table["x"].user == Some(EmptyUser) &&
      ResolveUser(table["x"].user, Some(base), map[], map[], false).value.value.keywords == ""
  {
  }

  /** A bidder named only in blocks is reset to an empty record by every block that names it, so
      a site set by an earlier block is lost when a later block sets only the app; the same
      bidder on `ext.prebid.data.bidders` keeps both. */
  lemma RecordResetDropsEarlierSite(s: Site, a: App)
    ensures
      var blocks := [
        BidderConfig(["x"], Some(Config(Some(FpdData(Some(s), None, None))))),
        BidderConfig(["x"], Some(Config(Some(FpdData(None, Some(a), None)))))];
      var unlisted := PreprocessBidderFpd(ExtRequestPrebid(false, Some(PrebidData([], [])), Some(blocks))).0;
      var listed := PreprocessBidderFpd(ExtRequestPrebid(false, Some(PrebidData([], ["x"])), Some(blocks))).0;
      && "x" in unlisted && unlisted["x"] == FpdData(None, Some(a), None)
      && "x" in listed && listed["x"] == FpdData(Some(s), Some(a), None)
  {
    var blocks := [
      BidderConfig(["x"], Some(Config(Some(FpdData(Some(s), None, None))))),
      BidderConfig(["x"], Some(Config(Some(FpdData(None, Some(a), None)))))];
    assert "x" in blocks[1].bidders;
    assert "x" in NamedIn(blocks);
    assert LastNaming(blocks, "x") == 1;
    assert blocks[..1] == [blocks[0]];
    var unlistedExt := ExtRequestPrebid(false, Some(PrebidData([], [])), Some(blocks));
    assert Blocks(unlistedExt) == blocks;
    assert "x" !in GlobalBidders(unlistedExt);
    var unlisted := PreprocessBidderFpd(unlistedExt).0;
    assert "x" in unlisted;
    assert unlisted["x"] == Supplied(blocks[1]);
    assert unlisted["x"] == FpdData(None, Some(a), None);
    var listedExt := ExtRequestPrebid(false, Some(PrebidData([], ["x"])), Some(blocks));
    assert NameSet(["x"]) == {"x"};
    assert blocks[..1][..0] == [];
    assert LastSupplied(NoFpd, blocks[..1], "x") == FpdData(Some(s), None, None);
    assert PreprocessBidderFpd(listedExt).0["x"] == LastSupplied(NoFpd, blocks, "x");
  }

  /** With an override present, an error from the global step is not reported: a base `ext`
      that does not parse fails the global merge, yet an override without `ext` resolves
      without error and leaves the user with no `ext` at all. */
  lemma GlobalMergeErrorIsLost(blob: Json)
    ensures ApplyGlobalUser(EmptyUser.(ext := Malformed), map[UserKey := WellFormed(blob)], map[]).err == Some(BadMergeDoc)
    ensures
      var r := ResolveUser(Some(EmptyUser), Some(EmptyUser.(ext := Malformed)), map[UserKey := WellFormed(blob)], map[], true);
      r.err.None? && r.value.value.ext.IsEmpty()
  {
  }

  /** An override `ext` that does not parse fails the whole pass when it must be merged into a
      parsed `ext`; no map is returned for any bidder. */
  lemma MalformedOverrideExtFailsWholePass(
    req: BidRequest, fpdBidderData: map<string, FpdData>, globalFpd: map<string, RawJson>,
    structured: map<string, seq<Data>>, biddersWithGlobalFpd: seq<string>, order: seq<string>, b: string)
    requires IsEnumeration(order, fpdBidderData.Keys)
    requires b in fpdBidderData && b !in biddersWithGlobalFpd
    requires fpdBidderData[b].user.Some? && fpdBidderData[b].user.value.ext.Malformed?
    requires req.user.Some? && req.user.value.ext.WellFormed?
    ensures BuildResolvedFpdForBidders(req, fpdBidderData, globalFpd, structured, biddersWithGlobalFpd, order).Failure?
  {
  }

  /** The same malformed override `ext` meets an empty `ext` instead: it is assigned verbatim
      and the bidder resolves without error, carrying the unparsable bytes. */
  lemma MalformedOverrideExtOntoEmptyPasses(base: User)
    requires base.ext.IsEmpty()
    ensures
      var r := ResolveUser(Some(EmptyUser.(ext := Malformed)), Some(base), map[], map[], false);
      r.err.None? && r.value.value.ext.Malformed?
  {
  }
}

=== FILE: json.dfy ===
/** JSON values as trees, and the raw byte fields that hold them. */
module Json {
  import opened Wrappers

  /** A JSON value. Objects are maps, so member order and duplicate keys are not represented:
      two documents are equal exactly when they are structurally equal. */
  datatype Json =
    | Null
    | Bool(b: bool)
    | Num(n: int)
    | Str(s: string)
    | Arr(items: seq<Json>)
    | Obj(fields: map<string, Json>)

  /** A JSON-carrying byte field (an `Ext`, an extracted blob, the serialized request), seen
      through its parse: no bytes at all (nil or length 0), a well-formed document, or bytes
      that a JSON parser rejects. */
  datatype RawJson = NoBytes | WellFormed(value: Json) | Malformed {

    /** The `len(b) == 0` test of the source. */
    predicate IsEmpty() {
      NoBytes?
    }
  }

  /** The errors the JSON helpers report. */
  datatype JsonError =
    | MalformedDocument   // the document to edit does not parse, or a node on the path is not an object
    | BadMergeDoc         // the merge-patch target does not parse
    | BadMergePatch       // the merge patch does not parse

  /** The value found by following `path` from `j` through object members, if any. */
  function Lookup(j: Json, path: seq<string>): Option<Json>
    decreases |path|
  {
    if |path| == 0 then Some(j)
    else if j.Obj? && path[0] in j.fields then Lookup(j.fields[path[0]], path[1..])
    else None
  }

  /** An extracted value as bytes: absent becomes no bytes. */
  function ToRaw(v: Option<Json>): RawJson {
    match v
    case None => NoBytes
    case Some(j) => WellFormed(j)
  }
}

=== FILE: json_patch.dfy ===
/** JSON merge patch as defined in section 2 of RFC 7396, the behaviour the first-party-data
    engine expects from `jsonpatch.MergePatch`. */
module JsonPatch {
  import opened Wrappers
  import opened Json

  /** The members a merge target contributes: a target that is not an object counts as `{}`. */
  function Members(j: Json): map<string, Json> {
    if j.Obj? then j.fields else map[]
  }

  /** No object reachable through object members has a member whose value is `null`
      (arrays are not looked into: a merge patch copies them verbatim). */
  ghost predicate NullFree(j: Json)
    decreases j
  {
    j.Obj? ==> forall k | k in j.fields :: !j.fields[k].Null? && NullFree(j.fields[k])
  }

  /** Applies `patch` to `target`: a patch that is not an object replaces the target; an object
      patch deletes the members it maps to `null`, merges the members it maps to other values
      recursively (a missing target member counting as `null`), and keeps the rest. */
  function MergePatch(target: Json, patch: Json): (r: Json)
    decreases patch
    ensures !patch.Obj? ==> r == patch
    ensures patch.Obj? ==> r.Obj?
    ensures patch.Obj? ==> forall k ::
      k in r.fields <==> (k in Members(target) || k in patch.fields) && !(k in patch.fields && patch.fields[k].Null?)
    ensures patch.Obj? ==> forall k | k in Members(target) && k !in patch.fields :: r.fields[k] == Members(target)[k]
    ensures patch.Obj? ==> forall k | k in patch.fields && !patch.fields[k].Null? && !patch.fields[k].Obj? ::
      r.fields[k] == patch.fields[k]
  {
    if !patch.Obj? then patch
    else
      var t := Members(target);
      Obj(map k | k in t.Keys + patch.fields.Keys && !(k in patch.fields && patch.fields[k].Null?) ::
        if k in patch.fields then MergePatch(if k in t then t[k] else Null, patch.fields[k]) else t[k])
  }

  /** Applying the same patch twice has the effect of applying it once. */
  lemma {:induction false} MergePatchIdempotent(target: Json, patch: Json)
    ensures MergePatch(MergePatch(target, patch), patch) == MergePatch(target, patch)
    decreases patch
  {
    if patch.Obj? {
      var t := Members(target);
      var r1 := MergePatch(target, patch);
      var r2 := MergePatch(r1, patch);
      forall k | k in patch.fields && !patch.fields[k].Null?
        ensures r2.fields[k] == r1.fields[k]
      {
        var tk := if k in t then t[k] else Null;
        MergePatchIdempotent(tk, patch.fields[k]);
      }
      assert r2.fields == r1.fields;
    }
  }

  /** A merge never introduces a `null` member into a target that has none. */
  lemma {:induction false} MergePatchKeepsNullFree(target: Json, patch: Json)
    requires NullFree(target)
    ensures NullFree(MergePatch(target, patch))
    decreases patch
  {
    if patch.Obj? {
      var t := Members(target);
      var r := MergePatch(target, patch);
      forall k | k in r.fields
        ensures !r.fields[k].Null? && NullFree(r.fields[k])
      {
        if k in patch.fields {
          var tk := if k in t then t[k] else Null;
          MergePatchKeepsNullFree(tk, patch.fields[k]);
        }
      }
    }
  }

  /** Merging a patch into an empty object reproduces the patch exactly when the patch carries
      no `null` member (a patch that is not an object always replaces the target). */
  lemma {:induction false} MergeIntoEmptyIsIdentity(patch: Json)
    ensures MergePatch(Obj(map[]), patch) == patch <==> NullFree(patch)
  {
    var r := MergePatch(Obj(map[]), patch);
    if NullFree(patch) {
      NullFreeMergeIntoNothing(patch);
    } else {
      MergePatchKeepsNullFree(Obj(map[]), patch);
      assert NullFree(r);
    }
  }

  /** Helper for `MergeIntoEmptyIsIdentity`: a null-free patch merged into nothing is itself. */
  lemma {:induction false} NullFreeMergeIntoNothing(patch: Json)
    requires NullFree(patch)
    ensures MergePatch(Obj(map[]), patch) == patch
    ensures MergePatch(Null, patch) == patch
    decreases patch
  {
    if patch.Obj? {
      var r := MergePatch(Obj(map[]), patch);
      forall k | k in patch.fields
        ensures r.fields[k] == patch.fields[k]
      {
        NullFreeMergeIntoNothing(patch.fields[k]);
      }
      assert r.fields == patch.fields;
    }
  }

  /** `jsonpatch.MergePatch` on bytes: both sides must parse (the target is checked first);
      an empty byte slice does not parse. */
  function MergePatchRaw(doc: RawJson, patch: RawJson): (r: Result<Json, JsonError>)
    ensures r.Success? <==> doc.WellFormed? && patch.WellFormed?
    ensures !doc.WellFormed? ==> r == Failure(BadMergeDoc)
    ensures doc.WellFormed? && !patch.WellFormed? ==> r == Failure(BadMergePatch)
    ensures r.Success? ==> r.value == MergePatch(doc.value, patch.value)
  {
    if !doc.WellFormed? then Failure(BadMergeDoc)
    else if !patch.WellFormed? then Failure(BadMergePatch)
    else Success(MergePatch(doc.value, patch.value))
  }
}

=== FILE: json_util.dfy ===
/** Path-directed removal of one member from a JSON document: the behaviour the first-party-data
    engine relies on from `jsonutil.FindAndDropElement`, stated over JSON trees rather than bytes. */
module JsonUtil {
  import opened Wrappers
  import opened Json

  /** Every node that must be looked into on the way to `path` is an object, or the path
      ends early because a member is missing. */
  ghost predicate Traversable(j: Json, path: seq<string>) {
    forall i | 0 <= i < |path| :: Lookup(j, path[..i]).None? || Lookup(j, path[..i]).value.Obj?
  }

  /** `p` and `q` lead to unrelated places: neither is a prefix of the other. */
  ghost predicate Disjoint(p: seq<string>, q: seq<string>) {
    !(p <= q) && !(q <= p)
  }

  /** Removes the member at `path`, returning the new document and the removed value (None when
      the path leads nowhere). Fails when a node on the way is not an object. */
  function DropAt(j: Json, path: seq<string>): (r: Result<(Json, Option<Json>), JsonError>)
    requires |path| > 0
    decreases |path|
    ensures r.Failure? <==> !Traversable(j, path)
    ensures r.Failure? ==> r.error == MalformedDocument
    ensures r.Success? ==> r.value.1 == Lookup(j, path)
    ensures r.Success? ==> Lookup(r.value.0, path).None?
    ensures r.Success? && r.value.1.None? ==> r.value.0 == j
    ensures r.Success? ==> r.value.0.Obj?
  {
    if !j.Obj? then
      assert path[..0] == [];
      Failure(MalformedDocument)
    else if path[0] !in j.fields then
      NotFoundIsTraversable(j, path);
      Success((j, None))
    else if |path| == 1 then
      TraversableStep(j, path);
      Success((Obj(j.fields - {path[0]}), Some(j.fields[path[0]])))
    else
      TraversableStep(j, path);
      match DropAt(j.fields[path[0]], path[1..])
      case Failure(e) => Failure(e)
      case Success((c, v)) =>
        assert j.fields[path[0] := j.fields[path[0]]] == j.fields;
        Success((Obj(j.fields[path[0] := c]), v))
  }

  /** A missing first member makes every deeper prefix lead nowhere. */
  lemma NotFoundIsTraversable(j: Json, path: seq<string>)
    requires |path| > 0 && j.Obj? && path[0] !in j.fields
    ensures Traversable(j, path)
  {
  }

  /** Looking past the first member of an object is looking into that member. */
  lemma LookupStep(j: Json, path: seq<string>, i: nat)
    requires j.Obj? && |path| > 0 && path[0] in j.fields && 0 < i <= |path|
    ensures Lookup(j, path[..i]) == Lookup(j.fields[path[0]], path[1..][..i - 1])
  {
    assert path[..i][0] == path[0];
    assert path[..i][1..] == path[1..][..i - 1];
  }

  /** Traversability through an object reduces to traversability of the member named first. */
  lemma TraversableStep(j: Json, path: seq<string>)
    requires j.Obj? && |path| > 0 && path[0] in j.fields
    ensures Traversable(j, path) <==> Traversable(j.fields[path[0]], path[1..])
  {
    var c := j.fields[path[0]];
    assert path[..0] == [];
    if Traversable(j, path) {
      forall i | 0 <= i < |path[1..]|
        ensures Lookup(c, path[1..][..i]).None? || Lookup(c, path[1..][..i]).value.Obj?
      {
        LookupStep(j, path, i + 1);
      }
    }
    if Traversable(c, path[1..]) {
      forall i | 0 <= i < |path|
        ensures Lookup(j, path[..i]).None? || Lookup(j, path[..i]).value.Obj?
      {
        if i > 0 {
          LookupStep(j, path, i);
        }
      }
    }
  }

  /** Writes `v` at `path` when the parent of that place is an object reachable from `j`;
      otherwise leaves `j` as it is. */
  function PutAt(j: Json, path: seq<string>, v: Json): Json
    requires |path| > 0
    decreases |path|
  {
    if !j.Obj? then j
    else if |path| == 1 then Obj(j.fields[path[0] := v])
    else if path[0] in j.fields then Obj(j.fields[path[0] := PutAt(j.fields[path[0]], path[1..], v)])
    else j
  }

  /** Putting the removed value back where it was gives the original document. */
  lemma {:induction false} DropAtRoundTrip(j: Json, path: seq<string>)
    requires |path| > 0
    requires DropAt(j, path).Success? && DropAt(j, path).value.1.Some?
    ensures PutAt(DropAt(j, path).value.0, path, DropAt(j, path).value.1.value) == j
    decreases |path|
  {
    var k := path[0];
    if |path| == 1 {
      assert (j.fields - {k})[k := j.fields[k]] == j.fields;
    } else {
      DropAtRoundTrip(j.fields[k], path[1..]);
      var c := DropAt(j.fields[k], path[1..]).value.0;
      assert j.fields[k := c][k := j.fields[k]] == j.fields;
    }
  }

  /** Removing the member at `path` changes nothing reachable by a path unrelated to it. */
  lemma {:induction false} DropAtFrame(j: Json, path: seq<string>, q: seq<string>)
    requires |path| > 0
    requires DropAt(j, path).Success?
    requires Disjoint(path, q)
    ensures Lookup(DropAt(j, path).value.0, q) == Lookup(j, q)
    decreases |path|
  {
    var d := DropAt(j, path).value.0;
    var k := path[0];
    assert |q| == 0 ==> q <= path;
    if k !in j.fields {
    } else if q[0] != k {
      assert q[0] in d.fields <==> q[0] in j.fields;
      if q[0] in j.fields {
        assert d.fields[q[0]] == j.fields[q[0]];
      }
    } else {
      assert |path| == 1 ==> path <= q;
      assert |q| == 1 ==> q <= path;
      assert path[1..] <= q[1..] ==> path <= q;
      assert q[1..] <= path[1..] ==> q <= path;
      DropAtFrame(j.fields[k], path[1..], q[1..]);
    }
  }

  /** The byte-level operation: parse `input`, drop the member at `path`, and hand back the new
      document and the removed value's bytes (no bytes when nothing was there). */
  function FindAndDropElement(input: RawJson, path: seq<string>): (r: Result<(RawJson, RawJson), JsonError>)
    requires |path| > 0
    ensures r.Success? <==> input.WellFormed? && Traversable(input.value, path)
    ensures r.Failure? ==> r.error == MalformedDocument
    ensures r.Success? ==> r.value.0.WellFormed? && r.value.0.value.Obj?
    ensures r.Success? ==> r.value.1 == ToRaw(Lookup(input.value, path))
    ensures r.Success? ==> Lookup(r.value.0.value, path).None?
    ensures r.Success? && r.value.1.IsEmpty() ==> r.value.0 == input
    ensures r.Success? ==> forall q | Disjoint(path, q) :: Lookup(r.value.0.value, q) == Lookup(input.value, q)
  {
    if !input.WellFormed? then Failure(MalformedDocument)
    else
      var (d, removed) :- DropAt(input.value, path);
      forall q | Disjoint(path, q)
        ensures Lookup(d, q) == Lookup(input.value, q)
      {
        DropAtFrame(input.value, path, q);
      }
      Success((WellFormed(d), ToRaw(removed)))
  }
}

=== FILE: openrtb.dfy ===
/** The parts of the OpenRTB 2.5 request objects and of the Prebid request extension that the
    first-party-data engine reads or writes. Fields the engine never touches are represented by
    a few representative members (`id`, `buyerUid`, `ref`, `title`, `debug`, ...), so that
    "every other field is unchanged" has something to say. */
module OpenRtb {
  import opened Wrappers
  import opened Json

  /** An OpenRTB `Data` object: one first-party data provider and its segments. */
  datatype Data = Data(id: string, name: string, segments: seq<string>)

  /** An OpenRTB `Content` object; `data` is the structured first-party data it carries. */
  datatype Content = Content(id: string, title: string, data: seq<Data>)

  datatype User = User(
    id: string,
    buyerUid: string,
    yob: int,
    gender: string,
    keywords: string,
    data: seq<Data>,
    ext: RawJson)

  datatype Site = Site(
    id: string,
    name: string,
    domain: string,
    cat: seq<string>,
    sectionCat: seq<string>,
    pageCat: seq<string>,
    page: string,
    ref: string,
    search: string,
    keywords: string,
    content: Option<Content>,
    ext: RawJson)

  datatype App = App(
    id: string,
    name: string,
    bundle: string,
    domain: string,
    storeUrl: string,
    cat: seq<string>,
    sectionCat: seq<string>,
    pageCat: seq<string>,
    ver: string,
    keywords: string,
    content: Option<Content>,
    ext: RawJson)

  /** The parsed bid request; only the three first-party-data carriers are modelled. */
  datatype BidRequest = BidRequest(id: string, site: Option<Site>, app: Option<App>, user: Option<User>)

  /** The zero values Go gives `&openrtb2.User{}`, `&openrtb2.Site{}`, `&openrtb2.App{}`
      and `&openrtb2.Content{}`. */
  const EmptyUser := User("", "", 0, "", "", [], NoBytes)
  const EmptySite := Site("", "", "", [], [], [], "", "", "", "", None, NoBytes)
  const EmptyApp := App("", "", "", "", "", [], [], [], "", "", None, NoBytes)
  const EmptyContent := Content("", "", [])

  /** `openrtb_ext.FPDData`: per-entity first-party data for one bidder. */
  datatype FpdData = FpdData(site: Option<Site>, app: Option<App>, user: Option<User>)

  /** `&openrtb_ext.FPDData{}`: no entity set. */
  const NoFpd := FpdData(None, None, None)

  /** The `config` of a bidder-config block; `fpdData` is its first-party data payload. */
  datatype Config = Config(fpdData: Option<FpdData>)

  /** One entry of `ext.prebid.bidderconfig`: the bidders it names and what it sets for them. */
  datatype BidderConfig = BidderConfig(bidders: seq<string>, config: Option<Config>)

  /** `ext.prebid.data`: `bidders` lists the bidders allowed to see global first-party data. */
  datatype PrebidData = PrebidData(eidPermissions: seq<string>, bidders: seq<string>)

  /** `ext.prebid` of the request. */
  datatype ExtRequestPrebid = ExtRequestPrebid(
    debug: bool,
    data: Option<PrebidData>,
    bidderConfigs: Option<seq<BidderConfig>>)
}

=== FILE: wrappers.dfy ===
/** Failure-compatible wrappers used throughout the model. */
module Wrappers {

  /** An optional value; `None` plays the role of a nil pointer or an absent map entry. */
  datatype Option<+T> = None | Some(value: T) {

    /** The wrapped value, or `default` when there is none. */
    function GetOr(default: T): T {
      match this
      case Some(v) => v
      case None => default
    }
  }

  /** A value or an error, usable with `:-`. */
  datatype Result<+T, +E> = Success(value: T) | Failure(error: E) {

    predicate IsFailure() {
      Failure?
    }

    function PropagateFailure<U>(): Result<U, E>
      requires Failure?
    {
      Failure(error)
    }

    function Extract(): T
      requires Success?
    {
      value
    }
  }
}
